=== FILE: README.md ===
# fdleakcheck in Dafny

A model of the deterministic core of `fdleakcheck`, a Node.js module for
finding file-descriptor leaks. A caller takes a snapshot of its process's
open fds, does some work, takes a second snapshot and asks whether the two
`differs`. The model covers three parts:

- **The snapshot and its comparison** (`FdSnapshot`). An `OpenFdSnapshot` holds the
  ascending list of open fd numbers and the verbatim `pfiles` report.
  `differs` compares the comma-joined fd lists. `openFdsAsString` returns
  the report.
- **Snapshot assembly** (`FdSnapshot.TakeSnapshot`). Two runs of the command
  runner happen in order: `ls -1 /proc/<pid>/fd`, then `pfiles <pid>`. They
  form a waterfall (`Waterfall`) that stops at the first failure. The listing
  is split at newlines, empty lines are dropped, each line is read as a
  decimal number, and the numbers are sorted ascending.
- **The command runner** `customSpawn` (`Runner`). It runs
  `bash -c '<cmd> > /tmp/node-fdleakcheck.<pid>'`, waits for the child, reads
  the temporary file back and unlinks it. These three steps form a waterfall.
  The child's exit counts as a failure if a signal is set (checked first) or
  if the exit code is not 0. An unlink error is ignored.

The operating system is an input. A `Runner.Os` value says how the child
ends (an `error` event, or an `exit` with code and signal), what reading the
temporary file yields, and what unlinking it yields. The pid is a parameter.
Each run returns its result and also the list of effects it performed:
spawning bash, opening the temporary file, unlinking it. This is how the
model states what happens and in what order.

Supporting modules:

- `Outcomes`: the error taxonomy and the `Result`/`Status` values.
- `Decimal`: `toString`/`%d` and `parseInt` on digit strings.
- `Text`: JavaScript `split`/`join` with a one-character separator, and the
  empty-line filter.
- `Sorting`: numeric ascending sort.

`LeakProperties` holds the properties a caller relies on.

Behaviour that follows the code:

- Both sub-steps of `snapshot` are wrapped in the same `list open fds`
  context (`ListOpenFds`). A spawn failure still names its command
  (`ExecFailed(command, …)`), so it tells the listing run from the pfiles
  run. An exit-status, signal or read failure does not: both runs use the
  same temporary file path, so such an error does not say which sub-step
  failed.
- On a spawn, exit or read failure the runner's waterfall stops before
  `rmTmpfile`, so the temporary file is not unlinked on those paths. Only a
  run that read its output removes the file.
- `parseInt(s, 10)` reads the leading number of a line: `7x` and ` 7` give
  7, `-1` gives -1. It gives `NaN` only when no digits follow the optional
  whitespace and sign, and a `NaN` is then sorted with a comparator that
  yields `NaN`, which leaves the order unspecified. The model instead
  rejects every non-empty line that is not all digits as `BadFdLine(line)`,
  naming the first such line in listing order. The filter drops only empty
  lines, so a whitespace-only line is kept and rejected too. On listings
  made of digit lines the model does exactly what the code does.

## Model

| member | source | states |
|---|---|---|
| FdSnapshot.Snapshot.Differs | lib/fdleakcheck.js:26-43 | `differs` is true exactly when the two fd lists are not equal element for element; comparing the comma-joined strings decides exactly that |
| FdSnapshot.JoinFdsInjective | lib/fdleakcheck.js:38-42 | two fd lists have the same `join(',')` text if and only if they are the same list |
| FdSnapshot.JoinFdsEmpty | lib/fdleakcheck.js:42 | only the empty fd list joins to the empty string |
| LeakProperties.DiffersIrreflexive | lib/fdleakcheck.js:42 | a snapshot never differs from itself |
| LeakProperties.DiffersSymmetric | lib/fdleakcheck.js:42 | `a.differs(b) == b.differs(a)` |
| LeakProperties.DiffersIgnoresPfiles | lib/fdleakcheck.js:42 | replacing the pfiles report changes no comparison |
| LeakProperties.DiffersIffFdsChanged | lib/fdleakcheck.js:38-42 | for ascending fd lists, the snapshots differ exactly when their collections of fds (with multiplicity) differ |
| FdSnapshot.Snapshot.OpenFdsAsString | lib/fdleakcheck.js:45-49 | the human-readable text is the stored pfiles report; the fd list plays no part |
| FdSnapshot.JoinFds | lib/fdleakcheck.js:42 | `join(',')` of a non-empty fd list splits at the commas back into each fd's decimal text |
| FdSnapshot.Lines | lib/fdleakcheck.js:112-113 | the lines are the non-empty newline-free pieces of the listing, with multiplicity, and only those |
| LeakProperties.SnapshotFdsSorted | lib/fdleakcheck.js:112-115 | the fd list of every assembled snapshot is ascending |
| LeakProperties.OpenFdsAsStringIsPfilesOutput | lib/fdleakcheck.js:45-49 | `openFdsAsString()` of an assembled snapshot is the pfiles output, verbatim |
| FdSnapshot.ParseLines | lib/fdleakcheck.js:112-114 | every non-empty line parses exactly when all are digit strings; each fd is that line's value; otherwise the first bad line is reported |
| FdSnapshot.ParseListing | lib/fdleakcheck.js:112-115 | the fd list is ascending, has one entry per non-empty line (empty pieces dropped, duplicates kept) and is a rearrangement of the parsed lines; a listing with a non-number line is rejected, naming the first such non-empty line |
| FdSnapshot.ListCommand | lib/fdleakcheck.js:76-77 | the listing command is `ls -1 /proc/`, the pid's shortest decimal text (it reads back as the pid and has no leading zero), then `/fd`; it holds no shell metacharacter other than the spaces between words, as the runner demands of its commands |
| FdSnapshot.PfilesCommand | lib/fdleakcheck.js:92 | the report command is `pfiles ` followed by the pid's shortest decimal text; it holds no shell metacharacter other than the spaces between words |
| FdSnapshot.Steps | lib/fdleakcheck.js:72-103 | the pfiles run takes place exactly when the listing run completed; both complete for success; otherwise the failing run's own error is reported |
| FdSnapshot.Trace | lib/fdleakcheck.js:72-103 | the listing run's bash starts first; the pfiles run's bash is spawned exactly when the listing run completed, and the listing's unlink is the effect just before one such spawn (that nothing of pfiles comes earlier is `FdSnapshot.PfilesAfterListing`) |
| FdSnapshot.TakeSnapshot | lib/fdleakcheck.js:65-119 | all or nothing: a full snapshot exactly when both runs complete and the listing parses; otherwise the first failure, wrapped in `list open fds`; the effect list starts with the listing spawn and holds the pfiles spawn exactly when the listing run completed (the ordering is `FdSnapshot.PfilesAfterListing`) |
| FdSnapshot.PfilesAfterListing | lib/fdleakcheck.js:72-103 | with a completed listing run, the first four effects are exactly the listing's spawn, read and unlink of the temporary file, then the pfiles spawn: pfiles starts only after the listing run read and removed its file |
| FdSnapshot.OnlyListingOnFailure | lib/fdleakcheck.js:78-82 | when the listing run fails, its own effects are all the snapshot does; pfiles never starts |
| Waterfall.Execute | lib/fdleakcheck.js:140-197 | steps run in order until the first failure; the final status is that failure, or success when every step passed |
| Waterfall.ExecuteTwo | lib/fdleakcheck.js:72-103 | a two-step waterfall runs the second step only when the first passes, and reports the first failure |
| Waterfall.ExecuteThree | lib/fdleakcheck.js:140-197 | a three-step waterfall stops at the first of its steps that fails |
| Waterfall.FirstFailureWins | lib/fdleakcheck.js:72-103 | with the k-th step failing first, exactly k+1 steps run and the k-th error is reported |
| Runner.TmpFile | lib/fdleakcheck.js:133-137 | the temporary file is `/tmp/node-fdleakcheck.` followed by the pid's shortest decimal text; every character of it is a plain shell word character, so it needs no sanitising before it goes to bash |
| Runner.TmpFileInjective | lib/fdleakcheck.js:133-137 | different pids never share a temporary file |
| Runner.RedirectToTmpFile | lib/fdleakcheck.js:122-145 | bash's argument is the command, then ` > `, then the pid's temporary file, which holds no shell metacharacter; when the command holds none either apart from the spaces between words (as the runner's callers must ensure, and `ListCommand` and `PfilesCommand` do), that `>` is the line's only metacharacter other than those spaces, so the command's whole output goes to exactly that file |
| Runner.ReadStatus | lib/fdleakcheck.js:170-187 | the read step passes exactly when the file was read; a stream error is reported with the file's path |
| Runner.UnlinkStatus | lib/fdleakcheck.js:189-191 | the unlink step passes whatever the unlink yields |
| Runner.ChildStatus | lib/fdleakcheck.js:148-167 | the child passes only on exit code 0 with no signal; a signal is reported before the code; a spawn error is reported with the command |
| Runner.CustomSpawn | lib/fdleakcheck.js:129-198 | the output is returned exactly when the child exited cleanly and the file was read, and it is the file's text; otherwise the first spawn, exit or read error; bash runs first with `cmd > tmpfile`; the file is read only after a clean exit and unlinked only after a good read; a run that returned its output took all three steps |
| Runner.UnlinkFailureIgnored | lib/fdleakcheck.js:189-191 | an unlink failure never changes what the runner reports |
| Decimal.Render | lib/fdleakcheck.js:92 | a number prints as a non-empty digit string with no leading zero; only 0 prints as a text starting with `0`, and it prints as `0` |
| Decimal.RenderParse | lib/fdleakcheck.js:76 | every shortest decimal text is the printed form of its value, so printed text and value determine each other |
| Decimal.Parse | lib/fdleakcheck.js:114 | a line reads as a number exactly when it is a non-empty string of decimal digits |
| Decimal.ParseRender | lib/fdleakcheck.js:114 | reading back the decimal text of a number gives the number |
| Decimal.RenderInjective | lib/fdleakcheck.js:42 | two numbers print the same exactly when they are equal |
| Text.Split | lib/fdleakcheck.js:112 | `split` yields at least one piece and no piece holds the separator |
| Text.Join | lib/fdleakcheck.js:42 | the joined text starts with the first piece, followed by the separator when more pieces follow; `Text.SplitJoin` shows that splitting it again gives the pieces back |
| Text.SplitJoin | lib/fdleakcheck.js:42 | joining separator-free pieces and splitting again gives the pieces back |
| Text.JoinSplit | lib/fdleakcheck.js:112 | splitting a string and joining the pieces gives the string back |
| Text.NonEmpty | lib/fdleakcheck.js:112-113 | the filter keeps every non-empty piece, with multiplicity, and only those |
| Text.NonEmptyAppend | lib/fdleakcheck.js:112-113 | the filter keeps the pieces in their original order: filtering a concatenation is concatenating the filtered parts |
| Sorting.Sort | lib/fdleakcheck.js:114-115 | the sorted fds are ascending and a rearrangement of the input |
| Sorting.SortedUnique | lib/fdleakcheck.js:38-41 | two ascending lists with the same elements are equal, which is why comparing sorted lists is enough |
| Sorting.SortIsCanonical | lib/fdleakcheck.js:114-115 | any ascending rearrangement of the input is the sort's result |
| LeakProperties.ParseLinesPermutation | lib/fdleakcheck.js:112-115 | rearranged listing lines parse to a rearrangement of the same fds |
| LeakProperties.ParseListingOf | lib/fdleakcheck.js:112-115 | the `ls -1` text of any fds parses back to those fds, ascending |
| LeakProperties.SnapshotOfListing | lib/fdleakcheck.js:103-118 | when both runs complete on an ascending listing, the snapshot holds exactly those fds and the pfiles text |
| LeakProperties.SameFdsNoLeak | test/tst.noleak.js:9-21 | two snapshots whose listings hold the same lines in any order do not differ |
| LeakProperties.NewFdIsLeak | test/tst.leak.js:10-24 | a listing with one more fd gives a snapshot that holds the fd and differs from the earlier one |
| LeakProperties.ScenarioBefore | test/tst.leak.js:10-16 | with fds 0 to 3 listed, the snapshot holds [0, 1, 2, 3] |
| LeakProperties.ScenarioAfter | test/tst.leak.js:17-19 | with fd 4 also listed, the snapshot holds [0, 1, 2, 3, 4] |
| LeakProperties.OpenedFileScenario | test/tst.leak.js:23-24 | those two snapshots differ |
| LeakProperties.ScenarioListings | test/tst.leak.js:10-19 | the scenario's listings are the texts `ls -1` prints |

## Left out

- Process spawning, the child's `error`/`exit` event wiring, `fs.createReadStream` and `fs.unlink` are left out. They are I/O. Their results are the inputs of `Runner.Os`.
- The promise that measuring uses no new fds in the calling process is left out. It depends on the OS and on the stream lifecycle, and the model cannot observe it.
- The asynchronous callback mechanics of `async`/`vasync` are left out. Waterfalls are sequential functions. The callback that runs twice when a read stream emits both `error` and `close` is not modelled.
- Text that a stream delivers before an `error` event is not modelled. The code discards it anyway (`callback(err, null)`). UTF-8 decoding of chunks is also not modelled: the read text is given as a string.
- Full `parseInt` semantics are left out: leading whitespace, signs, trailing garbage and `NaN`. Lines are numbers only when made of decimal digits. Other lines give `BadFdLine`, as described above.
- JavaScript number precision is left out: fd numbers and pids above 2^53, and `toString` switching to exponent notation. The model uses unbounded naturals.
- VError message text is left out. Errors are datatypes that carry the command, path, signal, code or cause, not the formatted message.
- `examples/basic.js` and the test programs only call the API. They appear here only as the lemmas that restate their assertions.
- `path.join` normalisation is left out. The pid's decimal text has no `/` or `.`, so the join is plain concatenation.

=== FILE: decimal.dfy ===
/**
  Decimal text of natural numbers: how a pid or an fd number is printed
  (`toString()`, `%d`, `Array.prototype.join`) and how a digit-only line of
  the fd listing is read back (`parseInt(s, 10)`).
 */
module Decimal {
  import opened Outcomes

  predicate IsDigit(c: char) {
    '0' <= c <= '9'
  }

  /** A non-empty string made of decimal digits only. */
  predicate IsDigits(s: string) {
    |s| > 0 && forall i :: 0 <= i < |s| ==> IsDigit(s[i])
  }

  function DigitChar(d: nat): (c: char)
    requires d < 10
    ensures IsDigit(c)
  {
    (48 + d) as char
  }

  function DigitValue(c: char): (d: nat)
    requires IsDigit(c)
    ensures d < 10
  {
    (c as int - 48) as nat
  }

  /** Shortest decimal text: digits only, and no leading zero unless the text is "0". */
  predicate Canonical(s: string) {
    IsDigits(s) && (s[0] == '0' ==> |s| == 1)
  }

  /** Number.prototype.toString() of a natural number: shortest decimal text. */
  function Render(n: nat): (s: string)
    ensures Canonical(s)
    ensures s[0] == '0' ==> n == 0 && s == "0"
  {
    if n < 10 then [DigitChar(n)] else Render(n / 10) + [DigitChar(n % 10)]
  }

  /** Value of a (possibly empty) run of digits, most significant first. */
  function DigitsValue(s: string): nat
    requires forall i :: 0 <= i < |s| ==> IsDigit(s[i])
  {
    if |s| == 0 then 0 else DigitsValue(s[..|s| - 1]) * 10 + DigitValue(s[|s| - 1])
  }

  /**
    parseInt(s, 10) restricted to the text this model admits: a digit-only
    line yields its value, anything else yields None.
   */
  function Parse(s: string): (r: Option<nat>)
    ensures r.Some? <==> IsDigits(s)
  {
    if IsDigits(s) then Some(DigitsValue(s)) else None
  }

  /** Reading back the decimal text of a number gives the number. */
  lemma {:induction false} ParseRender(n: nat)
    ensures Parse(Render(n)) == Some(n)
  {
    var s := Render(n);
    assert DigitValue(s[|s| - 1]) == n % 10 by {
      assert s[|s| - 1] == DigitChar(n % 10);
      assert (DigitChar(n % 10) as int) == 48 + n % 10;
    }
    assert DigitsValue(s) == DigitsValue(s[..|s| - 1]) * 10 + n % 10;
    if n < 10 {
      assert s[..|s| - 1] == [];
    } else {
      assert s[..|s| - 1] == Render(n / 10);
      ParseRender(n / 10);
    }
  }

  /** A digit string that does not start with 0 has a positive value. */
  lemma {:induction false} LeadingDigitPositive(s: string)
    requires IsDigits(s) && s[0] != '0'
    ensures DigitsValue(s) > 0
  {
    if |s| > 1 {
      assert s[..|s| - 1][0] == s[0];
      LeadingDigitPositive(s[..|s| - 1]);
    }
  }

  /** The shortest decimal text of a number is its rendering, and no other text is. */
  lemma {:induction false} RenderParse(s: string)
    requires Canonical(s)
    ensures Render(DigitsValue(s)) == s
  {
    var n := DigitsValue(s);
    var d := DigitValue(s[|s| - 1]);
    assert DigitChar(d) == s[|s| - 1];
    if |s| == 1 {
      assert s[..|s| - 1] == [];
      assert n == DigitsValue([]) * 10 + d;
    } else {
      var p := s[..|s| - 1];
      assert p[0] == s[0];
      LeadingDigitPositive(p);
      RenderParse(p);
      assert n == DigitsValue(p) * 10 + d;
      assert n / 10 == DigitsValue(p) && n % 10 == d;
      assert s == p + [s[|s| - 1]];
    }
  }

  /** Distinct numbers have distinct decimal texts. */
  lemma RenderInjective(m: nat, n: nat)
    ensures Render(m) == Render(n) <==> m == n
  {
    if Render(m) == Render(n) {
      ParseRender(m);
      ParseRender(n);
    }
  }

  /** The decimal text of a number holds none of the given non-digit character. */
  lemma RenderAvoids(n: nat, c: char)
    requires !IsDigit(c)
    ensures c !in Render(n)
  {
  }
}

=== FILE: fdsnapshot.dfy ===
/**
  The fd leak checker proper: `snapshot(callback)` lists the process's open
  file descriptors (`ls -1 /proc/<pid>/fd`) and captures the human-readable
  `pfiles <pid>` report, each through the runner, and assembles them into an
  immutable snapshot; `differs` compares two snapshots by their fd lists.
 */
module FdSnapshot {
  import opened Outcomes
  import Decimal
  import Text
  import Sorting
  import Waterfall
  import Runner

  /**
    OpenFdSnapshot: the open fds, ascending, and the pfiles text, verbatim.
    Both fields exist together, so a half-built snapshot cannot be observed.
   */
  datatype Snapshot = Snapshot(pfiles: string, openFds: seq<nat>) {

    /**
      differs(rhs): the comma-joined fd lists are different strings, which is
      the case exactly when the lists themselves are different.
     */
    function Differs(rhs: Snapshot): (r: bool)
      ensures r <==> openFds != rhs.openFds
    {
      JoinFdsInjective(openFds, rhs.openFds);
      JoinFds(openFds) != JoinFds(rhs.openFds)
    }

    /** openFdsAsString(): the pfiles report, for a human to read; the fd list plays no part. */
    function OpenFdsAsString(): (report: string)
      ensures report == pfiles
    {
      pfiles
    }
  }

  /** `f` applied to each element, in order. */
  function Map<T, U>(f: T -> U, s: seq<T>): (r: seq<U>)
    ensures |r| == |s|
    ensures forall i :: 0 <= i < |s| ==> r[i] == f(s[i])
  {
    seq(|s|, i requires 0 <= i < |s| => f(s[i]))
  }

  /** The decimal text of each fd, in order (the elements `join` prints). */
  function RenderAll(fds: seq<nat>): (texts: seq<string>)
    ensures |texts| == |fds|
    ensures forall i :: 0 <= i < |fds| ==> texts[i] == Decimal.Render(fds[i])
  {
    Map(Decimal.Render, fds)
  }

  /** `fds.join(',')`: splitting it at the commas gives back each fd's decimal text. */
  function JoinFds(fds: seq<nat>): (s: string)
    ensures |fds| > 0 ==> Text.Split(s, ',') == RenderAll(fds)
  {
    var texts := RenderAll(fds);
    RenderAllAvoids(fds, ',');
    if |fds| == 0 then Text.Join(texts, ',')
    else
      Text.SplitJoin(texts, ',');
      Text.Join(texts, ',')
  }

  /** No fd's decimal text holds a non-digit character. */
  lemma RenderAllAvoids(fds: seq<nat>, c: char)
    requires !Decimal.IsDigit(c)
    ensures forall i :: 0 <= i < |fds| ==> c !in RenderAll(fds)[i]
  {
    forall i | 0 <= i < |fds|
      ensures c !in RenderAll(fds)[i]
    {
      Decimal.RenderAvoids(fds[i], c);
    }
  }

  /** Only the empty fd list joins to the empty string. */
  lemma JoinFdsEmpty(fds: seq<nat>)
    ensures JoinFds(fds) == "" <==> |fds| == 0
  {
    if |fds| > 0 {
      assert |RenderAll(fds)[0]| > 0;
    }
  }

  /** Comparing comma-joined fd lists is the same as comparing the lists. */
  lemma JoinFdsInjective(a: seq<nat>, b: seq<nat>)
    ensures JoinFds(a) == JoinFds(b) <==> a == b
  {
    if JoinFds(a) == JoinFds(b) {
      JoinFdsEmpty(a);
      JoinFdsEmpty(b);
      if |a| > 0 {
        var ta, tb := RenderAll(a), RenderAll(b);
        assert ta == tb;
        forall i | 0 <= i < |a|
          ensures a[i] == b[i]
        {
          Decimal.RenderInjective(a[i], b[i]);
        }
      }
    }
  }

  /** The non-empty lines of the fd listing, in listing order. */
  function Lines(listing: string): (lines: seq<string>)
    ensures forall i :: 0 <= i < |lines| ==> |lines[i]| > 0 && '\n' !in lines[i]
    ensures multiset(lines) == multiset(Text.Split(listing, '\n'))["" := 0]
  {
    var parts := Text.Split(listing, '\n');
    var lines := Text.NonEmpty(parts);
    forall i | 0 <= i < |lines|
      ensures '\n' !in lines[i]
    {
      assert lines[i] in multiset(lines);
      var j :| 0 <= j < |parts| && parts[j] == lines[i];
    }
    lines
  }

  /**
    `map(function (s) { return (parseInt(s, 10)); })` over the non-empty
    lines, for digit-only lines; the first other line is reported instead.
   */
  function ParseLines(lines: seq<string>): (r: Result<seq<nat>>)
    ensures r.Ok? <==> forall i :: 0 <= i < |lines| ==> Decimal.IsDigits(lines[i])
    ensures r.Ok? ==> |r.value| == |lines|
    ensures r.Ok? ==> forall i :: 0 <= i < |lines| ==> Decimal.Parse(lines[i]) == Some(r.value[i])
    ensures r.Err? ==> exists k :: 0 <= k < |lines| && !Decimal.IsDigits(lines[k])
                                   && r.error == BadFdLine(lines[k])
                                   && forall i :: 0 <= i < k ==> Decimal.IsDigits(lines[i])
  {
    if |lines| == 0 then Ok([])
    else
      match Decimal.Parse(lines[0])
      case None => Err(BadFdLine(lines[0]))
      case Some(fd) =>
        var rest := ParseLines(lines[1..]);
        assert forall i :: 1 <= i < |lines| ==> lines[i] == lines[1..][i - 1];
        match rest
        case Err(e) =>
          assert exists k :: 1 <= k < |lines| && !Decimal.IsDigits(lines[k])
                             && e == BadFdLine(lines[k])
                             && forall i :: 0 <= i < k ==> Decimal.IsDigits(lines[i]) by {
            var k :| 0 <= k < |lines[1..]| && !Decimal.IsDigits(lines[1..][k])
                     && e == BadFdLine(lines[1..][k])
                     && forall i :: 0 <= i < k ==> Decimal.IsDigits(lines[1..][i]);
            assert forall i :: 1 <= i < k + 1 ==> Decimal.IsDigits(lines[i]);
            assert !Decimal.IsDigits(lines[k + 1]) && e == BadFdLine(lines[k + 1]);
          }
          Err(e)
        case Ok(fds) => Ok([fd] + fds)
  }

  /**
    The fd list of a snapshot: the listing split at newlines, empty lines
    dropped, each remaining line read as a decimal number, sorted ascending.
   */
  function ParseListing(listing: string): (r: Result<seq<nat>>)
    ensures r.Ok? <==> forall i :: 0 <= i < |Lines(listing)| ==> Decimal.IsDigits(Lines(listing)[i])
    ensures r.Ok? ==> Sorting.Sorted(r.value)
    // one fd per non-empty line: empty pieces are dropped, duplicates are kept
    ensures r.Ok? ==> |r.value| == |Text.Split(listing, '\n')| - multiset(Text.Split(listing, '\n'))[""]
    ensures r.Ok? ==> multiset(r.value) == multiset(ParseLines(Lines(listing)).value)
    // otherwise the first non-empty line that is not a number is reported
    ensures r.Err? ==> exists k :: 0 <= k < |Lines(listing)| && !Decimal.IsDigits(Lines(listing)[k])
                                   && r.error == BadFdLine(Lines(listing)[k])
                                   && forall i :: 0 <= i < k ==> Decimal.IsDigits(Lines(listing)[i])
  {
    match ParseLines(Lines(listing))
    case Err(e) => Err(e)
    case Ok(fds) =>
      assert |multiset(fds)| == |fds|;
      Ok(Sorting.Sort(fds))
  }

  /** The listing command: `ls -1` of the process's fd directory under /proc. */
  function ListCommand(pid: nat): (cmd: string)
    ensures |cmd| > 15 && cmd[..12] == "ls -1 /proc/" && cmd[|cmd| - 3..] == "/fd"
    ensures Decimal.Parse(cmd[12..|cmd| - 3]) == Some(pid)
    ensures Decimal.Canonical(cmd[12..|cmd| - 3])
    ensures Runner.PlainCommand(cmd)
  {
    var digits := Decimal.Render(pid);
    var cmd := "ls -1 /proc/" + digits + "/fd";
    assert cmd[12..|cmd| - 3] == digits;
    Decimal.ParseRender(pid);
    assert forall i :: 12 <= i < |cmd| - 3 ==> cmd[i] == digits[i - 12];
    cmd
  }

  /** The report command: `pfiles` of the process. */
  function PfilesCommand(pid: nat): (cmd: string)
    ensures |cmd| > 7 && cmd[..7] == "pfiles "
    ensures Decimal.Parse(cmd[7..]) == Some(pid)
    ensures Decimal.Canonical(cmd[7..])
    ensures Runner.PlainCommand(cmd)
  {
    var cmd := "pfiles " + Decimal.Render(pid);
    assert cmd[7..] == Decimal.Render(pid);
    Decimal.ParseRender(pid);
    cmd
  }

  /** The pfiles run's bash command line is not the listing run's. */
  lemma RunsDiffer(pid: nat)
    ensures Runner.Redirect(ListCommand(pid), Runner.TmpFile(pid))
            != Runner.Redirect(PfilesCommand(pid), Runner.TmpFile(pid))
  {
    var lsArg := Runner.Redirect(ListCommand(pid), Runner.TmpFile(pid));
    var pfArg := Runner.Redirect(PfilesCommand(pid), Runner.TmpFile(pid));
    assert lsArg[0] == 'l' && pfArg[0] == 'p';
  }

  /**
    With a completed listing run, the snapshot's first four effects are that
    run's whole trace (spawn, read, unlink of the temporary file) and then
    the pfiles spawn: nothing of the pfiles run happens before the listing
    run has read and removed its file.
   */
  lemma PfilesAfterListing(pid: nat, lsOs: Runner.Os, pfilesOs: Runner.Os)
    requires Runner.Completes(lsOs)
    ensures var t := TakeSnapshot(pid, lsOs, pfilesOs).effects;
            |t| > 3 && t[..4] == [Runner.Spawn("bash", ["-c", Runner.Redirect(ListCommand(pid), Runner.TmpFile(pid))]),
                                  Runner.OpenForRead(Runner.TmpFile(pid)), Runner.Unlink(Runner.TmpFile(pid)),
                                  Runner.Spawn("bash", ["-c", Runner.Redirect(PfilesCommand(pid), Runner.TmpFile(pid))])]
  {
    assert TakeSnapshot(pid, lsOs, pfilesOs).effects[..3] == Runner.CustomSpawn(ListCommand(pid), pid, lsOs).effects;
  }

  /** When the listing run fails, its effects are all the snapshot does: pfiles never starts. */
  lemma OnlyListingOnFailure(pid: nat, lsOs: Runner.Os, pfilesOs: Runner.Os)
    requires !Runner.Completes(lsOs)
    ensures TakeSnapshot(pid, lsOs, pfilesOs).effects == Runner.CustomSpawn(ListCommand(pid), pid, lsOs).effects
  {
  }

  /** What the snapshot callback receives, and every effect taken on the way. */
  datatype Taken = Taken(result: Result<Snapshot>, effects: seq<Runner.Effect>)

  /** The snapshot's two runs as a waterfall: the pfiles run happens only after the listing run succeeds. */
  function Steps(pid: nat, lsOs: Runner.Os, pfilesOs: Runner.Os): (w: Waterfall.Run)
    ensures w.executed == 2 <==> Runner.Completes(lsOs)
    ensures w.executed == 1 || w.executed == 2
    ensures w.status.Pass? <==> Runner.Completes(lsOs) && Runner.Completes(pfilesOs)
    ensures !Runner.Completes(lsOs) ==>
              w.status == Fail(Runner.CustomSpawn(ListCommand(pid), pid, lsOs).output.error)
    ensures Runner.Completes(lsOs) && !Runner.Completes(pfilesOs) ==>
              w.status == Fail(Runner.CustomSpawn(PfilesCommand(pid), pid, pfilesOs).output.error)
  {
    var ls := Runner.CustomSpawn(ListCommand(pid), pid, lsOs);
    var pf := Runner.CustomSpawn(PfilesCommand(pid), pid, pfilesOs);
    Waterfall.ExecuteTwo(ls.output.ToStatus(), pf.output.ToStatus());
    Waterfall.Execute([ls.output.ToStatus(), pf.output.ToStatus()])
  }

  /** Every effect of the snapshot's runs, in order: the listing run's, then the pfiles run's if it started. */
  function Trace(pid: nat, lsOs: Runner.Os, pfilesOs: Runner.Os): (effects: seq<Runner.Effect>)
    // the listing runs first; pfiles starts only once the listing run completed
    ensures |effects| > 0
    ensures effects[0] == Runner.Spawn("bash", ["-c", Runner.Redirect(ListCommand(pid), Runner.TmpFile(pid))])
    ensures (Runner.Spawn("bash", ["-c", Runner.Redirect(PfilesCommand(pid), Runner.TmpFile(pid))]) in effects)
            <==> Runner.Completes(lsOs)
    // and by then the listing's temporary file has been removed
    ensures Runner.Completes(lsOs) ==>
              |effects| > 3 && effects[2] == Runner.Unlink(Runner.TmpFile(pid))
              && effects[3] == Runner.Spawn("bash", ["-c", Runner.Redirect(PfilesCommand(pid), Runner.TmpFile(pid))])
  {
    var ls := Runner.CustomSpawn(ListCommand(pid), pid, lsOs);
    var pf := Runner.CustomSpawn(PfilesCommand(pid), pid, pfilesOs);
    RunsDiffer(pid);
    Runner.SpawnsOnlyItsCommand(ListCommand(pid), PfilesCommand(pid), pid, lsOs);
    ls.effects + (if Steps(pid, lsOs, pfilesOs).executed == 2 then pf.effects else [])
  }

  /**
    snapshot(callback) of process `pid`, where `lsOs` and `pfilesOs` are the
    operating system's behaviour during the listing run and the pfiles run.
   */
  function TakeSnapshot(pid: nat, lsOs: Runner.Os, pfilesOs: Runner.Os): (r: Taken)
    // all or nothing: a snapshot exactly when both runs completed and the listing parsed
    ensures r.result.Ok? <==>
              Runner.Completes(lsOs) && Runner.Completes(pfilesOs) && ParseListing(lsOs.read.text).Ok?
    ensures r.result.Ok? ==> r.result.value.openFds == ParseListing(lsOs.read.text).value
    ensures r.result.Ok? ==> r.result.value.pfiles == pfilesOs.read.text
    // a runner failure is reported with the 'list open fds' context
    ensures !Runner.Completes(lsOs) ==>
              r.result == Err(ListOpenFds(Runner.CustomSpawn(ListCommand(pid), pid, lsOs).output.error))
    ensures Runner.Completes(lsOs) && !Runner.Completes(pfilesOs) ==>
              r.result == Err(ListOpenFds(Runner.CustomSpawn(PfilesCommand(pid), pid, pfilesOs).output.error))
    ensures Runner.Completes(lsOs) && Runner.Completes(pfilesOs) && ParseListing(lsOs.read.text).Err? ==>
              r.result == Err(ParseListing(lsOs.read.text).error)
    // the listing runs first; pfiles starts only once the listing run completed
    ensures |r.effects| > 0
    ensures r.effects[0] == Runner.Spawn("bash", ["-c", Runner.Redirect(ListCommand(pid), Runner.TmpFile(pid))])
    ensures (Runner.Spawn("bash", ["-c", Runner.Redirect(PfilesCommand(pid), Runner.TmpFile(pid))]) in r.effects)
            <==> Runner.Completes(lsOs)
    // and by then the listing's temporary file has been removed
    ensures Runner.Completes(lsOs) ==>
              |r.effects| > 3 && r.effects[2] == Runner.Unlink(Runner.TmpFile(pid))
              && r.effects[3] == Runner.Spawn("bash", ["-c", Runner.Redirect(PfilesCommand(pid), Runner.TmpFile(pid))])
  {
    var w := Steps(pid, lsOs, pfilesOs);
    var effects := Trace(pid, lsOs, pfilesOs);
    if w.status.Fail? then
      Taken(Err(ListOpenFds(w.status.error)), effects)
    else
      match ParseListing(lsOs.read.text)
      case Err(e) => Taken(Err(e), effects)
      case Ok(fds) => Taken(Ok(Snapshot(pfilesOs.read.text, fds)), effects)
  }
}

=== FILE: leak_properties.dfy ===
/**
  What a caller of the fd leak checker can rely on when it brackets an
  operation with two snapshots: `differs` is a proper inequality on fd
  lists that ignores the pfiles report, two snapshots of the same open fds
  never differ however the listing was ordered, and one more open fd is
  always reported.
 */
module LeakProperties {
  import opened Outcomes
  import Decimal
  import Sorting
  import Text
  import Runner
  import opened FdSnapshot

  /** A snapshot never differs from itself. */
  lemma DiffersIrreflexive(a: Snapshot)
    ensures !a.Differs(a)
  {
  }

  /** Comparison does not depend on which snapshot is the receiver. */
  lemma DiffersSymmetric(a: Snapshot, b: Snapshot)
    ensures a.Differs(b) == b.Differs(a)
  {
  }

  /** The pfiles report plays no part in the comparison. */
  lemma DiffersIgnoresPfiles(a: Snapshot, b: Snapshot, report: string)
    ensures a.(pfiles := report).Differs(b) == a.Differs(b)
    ensures !a.Differs(a.(pfiles := report))
  {
  }

  /**
    For ascending fd lists, the snapshots differ exactly when the collections
    of open fds (counted with multiplicity) differ.
   */
  lemma DiffersIffFdsChanged(a: Snapshot, b: Snapshot)
    requires Sorting.Sorted(a.openFds) && Sorting.Sorted(b.openFds)
    ensures a.Differs(b) <==> multiset(a.openFds) != multiset(b.openFds)
  {
    if multiset(a.openFds) == multiset(b.openFds) {
      Sorting.SortedUnique(a.openFds, b.openFds);
    }
  }

  /** A successful snapshot's fd list is ascending. */
  lemma SnapshotFdsSorted(pid: nat, lsOs: Runner.Os, pfilesOs: Runner.Os)
    requires TakeSnapshot(pid, lsOs, pfilesOs).result.Ok?
    ensures Sorting.Sorted(TakeSnapshot(pid, lsOs, pfilesOs).result.value.openFds)
  {
  }

  /** openFdsAsString() of a successful snapshot is exactly what pfiles printed. */
  lemma OpenFdsAsStringIsPfilesOutput(pid: nat, lsOs: Runner.Os, pfilesOs: Runner.Os)
    requires TakeSnapshot(pid, lsOs, pfilesOs).result.Ok?
    ensures TakeSnapshot(pid, lsOs, pfilesOs).result.value.OpenFdsAsString() == pfilesOs.read.text
  {
  }

  /** Every line is a decimal number. */
  predicate AllDigits(lines: seq<string>) {
    forall i :: 0 <= i < |lines| ==> Decimal.IsDigits(lines[i])
  }

  /** The value of a digit-only line (other lines never reach it). */
  function LineValue(line: string): nat {
    if Decimal.IsDigits(line) then Decimal.DigitsValue(line) else 0
  }

  /** Reference definition of the parsed fds: the value of each line, position by position. */
  function Values(lines: seq<string>): seq<nat> {
    Map(LineValue, lines)
  }

  /** ParseLines agrees with the reference definition on digit-only lines. */
  lemma ParseLinesIsValues(lines: seq<string>)
    requires AllDigits(lines)
    ensures ParseLines(lines) == Ok(Values(lines))
  {
    assert ParseLines(lines).Ok?;
    var p := ParseLines(lines).value;
    forall i | 0 <= i < |lines|
      ensures p[i] == Values(lines)[i]
    {
      assert Decimal.Parse(lines[i]) == Some(p[i]);
    }
    assert p == Values(lines);
  }

  /** Rearranging digit-only lines leaves them digit-only. */
  lemma AllDigitsPermutation(a: seq<string>, b: seq<string>)
    requires multiset(a) == multiset(b)
    requires AllDigits(a)
    ensures AllDigits(b)
  {
    forall i | 0 <= i < |b|
      ensures Decimal.IsDigits(b[i])
    {
      assert b[i] in multiset(a);
    }
  }

  /** Dropping the element at k drops one occurrence of it. */
  lemma MultisetDropAt<T>(s: seq<T>, k: nat)
    requires k < |s|
    ensures multiset(s[..k] + s[k + 1..]) == multiset(s) - multiset{s[k]}
  {
    assert s == s[..k] + [s[k]] + s[k + 1..];
  }

  /** Moving the element at k of vb to the front of the rest keeps the multiset. */
  lemma MultisetMoveToFront<U>(va: seq<U>, vb: seq<U>, k: nat)
    requires 0 < |va| && k < |vb| && va[0] == vb[k]
    requires multiset(va[1..]) == multiset(vb[..k] + vb[k + 1..])
    ensures multiset(va) == multiset(vb)
  {
    assert vb == vb[..k] + [vb[k]] + vb[k + 1..];
    assert va == [va[0]] + va[1..];
  }

  /** A position at which `x` occurs in `s`. */
  function IndexOf<T(==)>(s: seq<T>, x: T): (k: nat)
    requires x in multiset(s)
    ensures k < |s| && s[k] == x
  {
    if s[0] == x then 0
    else
      assert s == [s[0]] + s[1..];
      IndexOf(s[1..], x) + 1
  }

  /** Mapping commutes with removing the element at k. */
  lemma MapDrop<T, U>(f: T -> U, s: seq<T>, k: nat)
    requires k < |s|
    ensures Map(f, s[..k] + s[k + 1..]) == Map(f, s)[..k] + Map(f, s)[k + 1..]
  {
    var rest := s[..k] + s[k + 1..];
    assert forall i :: 0 <= i < |rest| ==> rest[i] == s[if i < k then i else i + 1];
  }

  /** Rearranged elements map to a rearrangement of the same images. */
  lemma {:induction false} MapPermutation<T, U>(f: T -> U, a: seq<T>, b: seq<T>)
    requires multiset(a) == multiset(b)
    ensures multiset(Map(f, a)) == multiset(Map(f, b))
  {
    if |a| == 0 {
      assert |multiset(b)| == 0;
    } else {
      var k := IndexOf(b, a[0]);
      var b' := b[..k] + b[k + 1..];
      MultisetDropAt(b, k);
      assert multiset(a[1..]) == multiset(b') by {
        assert a == [a[0]] + a[1..];
      }
      MapPermutation(f, a[1..], b');
      MapMoveToFront(f, a, b, k);
    }
  }

  /** The images agree as multisets once they agree without a[0] and b[k], its equal. */
  lemma MapMoveToFront<T, U>(f: T -> U, a: seq<T>, b: seq<T>, k: nat)
    requires 0 < |a| && k < |b| && b[k] == a[0]
    requires multiset(Map(f, a[1..])) == multiset(Map(f, b[..k] + b[k + 1..]))
    ensures multiset(Map(f, a)) == multiset(Map(f, b))
  {
    var ma, mb := Map(f, a), Map(f, b);
    MapDrop(f, b, k);
    assert Map(f, a[1..]) == ma[1..];
    MultisetMoveToFront(ma, mb, k);
  }

  /**
    Parsing depends only on which lines the listing holds, not on their
    order: rearranged lines parse to a rearrangement of the same fds.
   */
  lemma ValuesPermutation(a: seq<string>, b: seq<string>)
    requires multiset(a) == multiset(b)
    requires AllDigits(a)
    ensures AllDigits(b)
    ensures multiset(Values(a)) == multiset(Values(b))
  {
    AllDigitsPermutation(a, b);
    MapPermutation(LineValue, a, b);
  }

  /** The same, stated for ParseLines. */
  lemma ParseLinesPermutation(a: seq<string>, b: seq<string>)
    requires multiset(a) == multiset(b)
    requires ParseLines(a).Ok?
    ensures ParseLines(b).Ok?
    ensures multiset(ParseLines(a).value) == multiset(ParseLines(b).value)
  {
    ValuesPermutation(a, b);
    ParseLinesIsValues(a);
    ParseLinesIsValues(b);
  }

  /** A line holding the decimal text of fd, appended, parses to fd appended. */
  lemma ParseLinesAppendFd(lines: seq<string>, fd: nat)
    requires ParseLines(lines).Ok?
    ensures ParseLines(lines + [Decimal.Render(fd)]) == Ok(ParseLines(lines).value + [fd])
  {
    var more := lines + [Decimal.Render(fd)];
    Decimal.ParseRender(fd);
    assert AllDigits(more) by {
      assert forall i :: 0 <= i < |lines| ==> more[i] == lines[i];
    }
    ParseLinesIsValues(lines);
    ParseLinesIsValues(more);
    assert Values(more) == Values(lines) + [fd];
  }

  /**
    Two snapshots whose listings hold the same non-empty lines, in any
    order, do not differ, whatever pfiles printed each time.
   */
  lemma SameFdsNoLeak(pid: nat, ls1: Runner.Os, pf1: Runner.Os, ls2: Runner.Os, pf2: Runner.Os)
    requires TakeSnapshot(pid, ls1, pf1).result.Ok?
    requires TakeSnapshot(pid, ls2, pf2).result.Ok?
    requires multiset(Lines(ls1.read.text)) == multiset(Lines(ls2.read.text))
    ensures !TakeSnapshot(pid, ls1, pf1).result.value.Differs(TakeSnapshot(pid, ls2, pf2).result.value)
  {
    ParseLinesPermutation(Lines(ls1.read.text), Lines(ls2.read.text));
    DiffersIffFdsChanged(TakeSnapshot(pid, ls1, pf1).result.value, TakeSnapshot(pid, ls2, pf2).result.value);
  }

  /**
    A leak is found: when the second listing holds every line of the first
    plus one more fd, the snapshots differ and the second one holds the fd.
   */
  lemma NewFdIsLeak(pid: nat, ls1: Runner.Os, pf1: Runner.Os, ls2: Runner.Os, pf2: Runner.Os, fd: nat)
    requires TakeSnapshot(pid, ls1, pf1).result.Ok?
    requires Runner.Completes(ls2) && Runner.Completes(pf2)
    requires multiset(Lines(ls2.read.text)) == multiset(Lines(ls1.read.text)) + multiset{Decimal.Render(fd)}
    ensures TakeSnapshot(pid, ls2, pf2).result.Ok?
    ensures multiset(TakeSnapshot(pid, ls2, pf2).result.value.openFds)
            == multiset(TakeSnapshot(pid, ls1, pf1).result.value.openFds) + multiset{fd}
    ensures fd in TakeSnapshot(pid, ls2, pf2).result.value.openFds
    ensures TakeSnapshot(pid, ls1, pf1).result.value.Differs(TakeSnapshot(pid, ls2, pf2).result.value)
  {
    var before := Lines(ls1.read.text);
    var after := Lines(ls2.read.text);
    ParseLinesAppendFd(before, fd);
    ParseLinesPermutation(before + [Decimal.Render(fd)], after);
    var s2 := TakeSnapshot(pid, ls2, pf2).result.value;
    assert fd in multiset(s2.openFds);
    DiffersIffFdsChanged(TakeSnapshot(pid, ls1, pf1).result.value, s2);
  }

  /** What `ls -1` prints for a directory holding the given fds: one per line. */
  function ListingOf(fds: seq<nat>): string {
    if |fds| == 0 then "" else Decimal.Render(fds[0]) + "\n" + ListingOf(fds[1..])
  }

  /** Splitting such a listing at newlines gives each fd's text and a final empty piece. */
  lemma {:induction false} SplitListing(fds: seq<nat>)
    ensures Text.Split(ListingOf(fds), '\n') == RenderAll(fds) + [""]
  {
    if |fds| > 0 {
      var head := Decimal.Render(fds[0]);
      Decimal.RenderAvoids(fds[0], '\n');
      Text.SplitAtFirst(head, '\n', ListingOf(fds[1..]));
      assert ListingOf(fds) == head + ['\n'] + ListingOf(fds[1..]);
      SplitListing(fds[1..]);
      assert RenderAll(fds) == [head] + RenderAll(fds[1..]);
    }
  }

  /** Dropping empty pieces from the fds' texts and a final empty piece leaves the texts. */
  lemma NonEmptyRendered(fds: seq<nat>)
    ensures Text.NonEmpty(RenderAll(fds) + [""]) == RenderAll(fds)
  {
    Text.NonEmptyAppend(RenderAll(fds), [""]);
    assert Text.NonEmpty([""]) == [];
    Text.NonEmptyKeeps(RenderAll(fds));
  }

  /** The non-empty lines of such a listing are the fds' decimal texts, in order. */
  lemma LinesOfListing(fds: seq<nat>)
    ensures Lines(ListingOf(fds)) == RenderAll(fds)
  {
    SplitListing(fds);
    NonEmptyRendered(fds);
  }

  /** Listing any fds and parsing the listing yields the same fds, ascending. */
  lemma ParseListingOf(fds: seq<nat>)
    ensures ParseListing(ListingOf(fds)) == Ok(Sorting.Sort(fds))
  {
    LinesOfListing(fds);
    var lines := RenderAll(fds);
    forall i | 0 <= i < |lines|
      ensures Decimal.Parse(lines[i]) == Some(fds[i])
    {
      Decimal.ParseRender(fds[i]);
    }
    ParseLinesIsValues(lines);
    assert ParseLines(lines).value == fds;
  }

  /** The operating system of a run whose child printed `text` and exited cleanly. */
  function CleanRun(text: string): (os: Runner.Os)
    ensures Runner.Completes(os) && os.read.text == text
  {
    Runner.Os(Runner.Exit(Some(0), None), Runner.ReadOk(text), Runner.UnlinkOk)
  }

  /** The listings of the worked scenario below, as `ls -1` prints them. */
  lemma ScenarioListings()
    ensures ListingOf([0, 1, 2, 3]) == "0\n1\n2\n3\n"
    ensures ListingOf([0, 1, 2, 3, 4]) == "0\n1\n2\n3\n4\n"
  {
    ListingsFrom(1);
    ListingStep(0, [1, 2, 3], "1\n2\n3\n");
    ListingStep(0, [1, 2, 3, 4], "1\n2\n3\n4\n");
  }

  /** The listings of the scenario's fds from `first` on, with and without fd 4. */
  lemma ListingsFrom(first: nat)
    requires 1 <= first <= 3
    ensures first == 3 ==> ListingOf([3]) == "3\n" && ListingOf([3, 4]) == "3\n4\n"
    ensures first == 2 ==> ListingOf([2, 3]) == "2\n3\n" && ListingOf([2, 3, 4]) == "2\n3\n4\n"
    ensures first == 1 ==> ListingOf([1, 2, 3]) == "1\n2\n3\n" && ListingOf([1, 2, 3, 4]) == "1\n2\n3\n4\n"
    decreases 3 - first
  {
    if first == 3 {
      ListingStep(4, [], "");
      ListingStep(3, [4], "4\n");
      ListingStep(3, [], "");
    } else if first == 2 {
      ListingsFrom(3);
      ListingStep(2, [3], "3\n");
      ListingStep(2, [3, 4], "3\n4\n");
    } else {
      ListingsFrom(2);
      ListingStep(1, [2, 3], "2\n3\n");
      ListingStep(1, [2, 3, 4], "2\n3\n4\n");
    }
  }

  /** A one-digit fd in front of a listing adds its digit and a newline in front of it. */
  lemma ListingStep(d: nat, fds: seq<nat>, rest: string)
    requires d < 10 && ListingOf(fds) == rest
    ensures ListingOf([d] + fds) == [Decimal.DigitChar(d), '\n'] + rest
  {
    assert ([d] + fds)[1..] == fds;
  }

  /**
    When the listing run prints ascending fds and both runs complete, the
    snapshot holds exactly those fds and the pfiles report.
   */
  lemma SnapshotOfListing(pid: nat, fds: seq<nat>, report: string)
    requires Sorting.Sorted(fds)
    ensures TakeSnapshot(pid, CleanRun(ListingOf(fds)), CleanRun(report)).result == Ok(Snapshot(report, fds))
  {
    ParseListingOf(fds);
    Sorting.SortIsCanonical(fds, fds);
  }

  /** The worked scenario's first snapshot: fds 0 to 3 are open. */
  lemma ScenarioBefore(pid: nat, report: string)
    ensures TakeSnapshot(pid, CleanRun(ListingOf([0, 1, 2, 3])), CleanRun(report)).result
            == Ok(Snapshot(report, [0, 1, 2, 3]))
  {
    SnapshotOfListing(pid, [0, 1, 2, 3], report);
  }

  /** The worked scenario's second snapshot: a file was opened as fd 4. */
  lemma ScenarioAfter(pid: nat, report: string)
    ensures TakeSnapshot(pid, CleanRun(ListingOf([0, 1, 2, 3, 4])), CleanRun(report)).result
            == Ok(Snapshot(report, [0, 1, 2, 3, 4]))
  {
    SnapshotOfListing(pid, [0, 1, 2, 3, 4], report);
  }

  /**
    The worked scenario: the snapshot with fds 0 to 3 (ScenarioBefore) and
    the one with fd 4 added (ScenarioAfter) differ, whatever pfiles printed.
   */
  lemma OpenedFileScenario(report1: string, report2: string)
    ensures Snapshot(report1, [0, 1, 2, 3]).Differs(Snapshot(report2, [0, 1, 2, 3, 4]))
  {
  }
}

=== FILE: outcomes.dfy ===
/**
  Failure-carrying values shared by the command runner and the snapshot
  builder: an optional value, the error taxonomy of the fd leak checker, a
  value-or-error result and a value-less pass/fail status (the shape of the
  `subcallback(err)` a waterfall step reports).
 */
module Outcomes {

  /** JavaScript's `null`-or-value, as used for the child's exit code and signal. */
  datatype Option<+T> = None | Some(value: T)

  /** Why taking a snapshot or running a child command failed. */
  datatype Error =
      /** the child could not be started (the child's 'error' event) */
    | ExecFailed(command: string, reason: string)
      /** the child was terminated by a signal */
    | KilledBySignal(signal: string)
      /** the child exited on its own with a status other than 0 (or none) */
    | ExitedWithStatus(code: Option<int>)
      /** the temporary output file could not be read */
    | ReadFailed(path: string, reason: string)
      /** context added by the snapshot builder around a runner failure */
    | ListOpenFds(cause: Error)
      /** a non-empty line of the fd listing is not a decimal number */
    | BadFdLine(line: string)

  /** Pass/fail outcome of one step of a waterfall. */
  datatype Status = Pass | Fail(error: Error)

  /** A computed value, or the error that prevented computing it. */
  datatype Result<+T> = Ok(value: T) | Err(error: Error) {

    /** Forgets the value: what a waterfall step reports to its successor. */
    function ToStatus(): (s: Status)
      ensures s.Pass? <==> Ok?
      ensures s.Fail? ==> s.error == error
    {
      match this
      case Ok(_) => Pass
      case Err(e) => Fail(e)
    }
  }
}

=== FILE: runner.dfy ===
/**
  `customSpawn(cmd, callback)`: runs `cmd` through `bash -c` with its output
  redirected to a temporary file named after the pid, waits for the child,
  reads the file back and removes it, all as a three-step waterfall
  (spawnChild, readOutput, rmTmpfile).

  The operating system is an input: an `Os` value says how the child ends,
  what reading the file yields and whether unlinking it works. The runner's
  externally visible actions are returned as a list of `Effect`s, in order.
 */
module Runner {
  import opened Outcomes
  import Decimal
  import Waterfall

  /** How the child process ends: its 'error' event, or its 'exit' event's (code, signal). */
  datatype ChildOutcome =
    | SpawnError(reason: string)
    | Exit(code: Option<int>, signal: Option<string>)

  /** What reading the temporary file yields: all of its text, or a stream error. */
  datatype ReadOutcome = ReadOk(text: string) | ReadError(reason: string)

  /** What removing the temporary file yields. */
  datatype UnlinkOutcome = UnlinkOk | UnlinkError(reason: string)

  /** The operating system's behaviour during one run of the runner. */
  datatype Os = Os(child: ChildOutcome, read: ReadOutcome, unlink: UnlinkOutcome)

  /** An action the runner takes outside the process's own memory. */
  datatype Effect =
      /** start `program` with `args`, its stdin, stdout and stderr all ignored */
    | Spawn(program: string, args: seq<string>)
    | OpenForRead(path: string)
    | Unlink(path: string)

  /** The child exited with status 0 and no signal, and its output file was read. */
  predicate Completes(os: Os) {
    os.child == Exit(Some(0), None) && os.read.ReadOk?
  }

  /** What the runner's callback receives, and what it did on the way. */
  datatype Spawned = Spawned(output: Result<string>, effects: seq<Effect>)

  /** The fixed directory and name prefix of the temporary file (TMPDIR is not honoured). */
  const TmpPrefix: string := "/tmp/node-fdleakcheck."

  /** A character bash reads as part of a plain word: no quoting or expansion needed. */
  predicate ShellSafe(c: char) {
    'a' <= c <= 'z' || 'A' <= c <= 'Z' || Decimal.IsDigit(c) || c == '/' || c == '.' || c == '-' || c == '_'
  }

  /** A command line without shell metacharacters: plain word characters and spaces only. */
  predicate PlainCommand(cmd: string) {
    forall i :: 0 <= i < |cmd| ==> ShellSafe(cmd[i]) || cmd[i] == ' '
  }

  /** The temporary file of process `pid`: the prefix followed by the pid's decimal text. */
  function TmpFile(pid: nat): (path: string)
    ensures |path| > |TmpPrefix| && path[..|TmpPrefix|] == TmpPrefix
    ensures Decimal.Parse(path[|TmpPrefix|..]) == Some(pid)
    ensures Decimal.Canonical(path[|TmpPrefix|..])
    // the path can be handed to bash unsanitised
    ensures forall i :: 0 <= i < |path| ==> ShellSafe(path[i])
  {
    var path := TmpPrefix + Decimal.Render(pid);
    assert path[|TmpPrefix|..] == Decimal.Render(pid);
    Decimal.ParseRender(pid);
    assert forall i :: 0 <= i < |TmpPrefix| ==> ShellSafe(TmpPrefix[i]);
    assert forall i :: |TmpPrefix| <= i < |path| ==> path[i] == Decimal.Render(pid)[i - |TmpPrefix|];
    path
  }

  /** Different processes use different temporary files. */
  lemma TmpFileInjective(p: nat, q: nat)
    ensures TmpFile(p) == TmpFile(q) <==> p == q
  {
  }

  /** The shell command line: `cmd` with its standard output sent to `tmpfile`. */
  function Redirect(cmd: string, tmpfile: string): string {
    cmd + " > " + tmpfile
  }

  /**
    bash's argument is the command, then ` > `, then the temporary file of
    the pid; every character of that path is a plain shell word character.
    For a plain command the `>` is then the line's only shell metacharacter
    other than the spaces between words, so
    bash sends the command's whole standard output to exactly that file.
   */
  lemma RedirectToTmpFile(cmd: string, pid: nat)
    ensures var line := Redirect(cmd, TmpFile(pid));
            |line| == |cmd| + 3 + |TmpFile(pid)|
            && line[..|cmd|] == cmd && line[|cmd|..|cmd| + 3] == " > "
            && line[|cmd| + 3..] == TmpFile(pid)
            && forall i :: |cmd| + 3 <= i < |line| ==> ShellSafe(line[i])
    ensures PlainCommand(cmd) ==>
              var line := Redirect(cmd, TmpFile(pid));
              forall i :: 0 <= i < |line| && i != |cmd| + 1 ==> ShellSafe(line[i]) || line[i] == ' '
  {
    var line := Redirect(cmd, TmpFile(pid));
    assert line[|cmd| + 3..] == TmpFile(pid);
    assert forall i :: 0 <= i < |cmd| ==> line[i] == cmd[i];
    assert forall i :: |cmd| + 3 <= i < |line| ==> line[i] == TmpFile(pid)[i - |cmd| - 3];
  }

  /** Outcome of the spawnChild step: signal is checked before the exit code. */
  function ChildStatus(cmd: string, child: ChildOutcome): (s: Status)
    ensures s.Pass? <==> child == Exit(Some(0), None)
    ensures child.SpawnError? ==> s == Fail(ExecFailed(cmd, child.reason))
    ensures child.Exit? && child.signal.Some? ==> s == Fail(KilledBySignal(child.signal.value))
    ensures child.Exit? && child.signal.None? && child.code != Some(0) ==>
              s == Fail(ExitedWithStatus(child.code))
  {
    match child
    case SpawnError(reason) => Fail(ExecFailed(cmd, reason))
    case Exit(code, signal) =>
      if signal.Some? then Fail(KilledBySignal(signal.value))
      else if code != Some(0) then Fail(ExitedWithStatus(code))
      else Pass
  }

  /** Outcome of the readOutput step: a stream error is reported with the file's path. */
  function ReadStatus(tmpfile: string, read: ReadOutcome): (s: Status)
    ensures s.Pass? <==> read.ReadOk?
    ensures read.ReadError? ==> s == Fail(ReadFailed(tmpfile, read.reason))
  {
    match read
    case ReadOk(_) => Pass
    case ReadError(reason) => Fail(ReadFailed(tmpfile, reason))
  }

  /** Outcome of the rmTmpfile step: the unlink callback ignores its error. */
  function UnlinkStatus(unlink: UnlinkOutcome): (s: Status)
    ensures s.Pass?
  {
    Pass
  }

  /** customSpawn: the output of `cmd`, or the first failure of spawn, exit or read. */
  function CustomSpawn(cmd: string, pid: nat, os: Os): (r: Spawned)
    // the output is returned exactly when the child exited cleanly and the file was read
    ensures r.output.Ok? <==> Completes(os)
    ensures r.output.Ok? ==> r.output.value == os.read.text
    // otherwise the first failure, with its own error
    ensures os.child != Exit(Some(0), None) ==>
              r.output == Err(ChildStatus(cmd, os.child).error)
    ensures os.child == Exit(Some(0), None) && os.read.ReadError? ==>
              r.output == Err(ReadFailed(TmpFile(pid), os.read.reason))
    // bash always starts first, writing to the file that is later read and removed
    ensures |r.effects| > 0
    ensures r.effects[0] == Spawn("bash", ["-c", Redirect(cmd, TmpFile(pid))])
    ensures r.effects <= [Spawn("bash", ["-c", Redirect(cmd, TmpFile(pid))]),
                          OpenForRead(TmpFile(pid)), Unlink(TmpFile(pid))]
    // the file is read only after a clean exit, and removed only after a good read
    ensures OpenForRead(TmpFile(pid)) in r.effects <==> os.child == Exit(Some(0), None)
    ensures Unlink(TmpFile(pid)) in r.effects <==> r.output.Ok?
    // a run that returned its output took all three steps
    ensures r.output.Ok? ==>
              r.effects == [Spawn("bash", ["-c", Redirect(cmd, TmpFile(pid))]),
                            OpenForRead(TmpFile(pid)), Unlink(TmpFile(pid))]
  {
    var tmpfile := TmpFile(pid);
    var steps := [ChildStatus(cmd, os.child), ReadStatus(tmpfile, os.read), UnlinkStatus(os.unlink)];
    var w := Waterfall.Execute(steps);
    Waterfall.ExecuteThree(steps[0], steps[1], steps[2]);
    var all := [Spawn("bash", ["-c", Redirect(cmd, tmpfile)]), OpenForRead(tmpfile), Unlink(tmpfile)];
    var effects := all[..w.executed];
    assert w.executed == 1 ==> effects == [all[0]];
    assert w.executed == 2 ==> effects == [all[0], all[1]];
    assert w.executed == 3 ==> effects == all;
    if w.status.Fail? then Spawned(Err(w.status.error), effects)
    else Spawned(Ok(os.read.text), effects)
  }

  /** A run of `cmd` never spawns bash on a different command line. */
  lemma SpawnsOnlyItsCommand(cmd: string, other: string, pid: nat, os: Os)
    requires Redirect(cmd, TmpFile(pid)) != Redirect(other, TmpFile(pid))
    ensures Spawn("bash", ["-c", Redirect(other, TmpFile(pid))]) !in CustomSpawn(cmd, pid, os).effects
  {
    var r := CustomSpawn(cmd, pid, os);
    var all := [Spawn("bash", ["-c", Redirect(cmd, TmpFile(pid))]), OpenForRead(TmpFile(pid)), Unlink(TmpFile(pid))];
    assert forall i :: 0 <= i < |r.effects| ==> r.effects[i] == all[i];
  }

  /** A failure to remove the temporary file never changes what the runner reports. */
  lemma UnlinkFailureIgnored(cmd: string, pid: nat, os: Os, unlink: UnlinkOutcome)
    ensures CustomSpawn(cmd, pid, os.(unlink := unlink)).output == CustomSpawn(cmd, pid, os).output
  {
  }
}

=== FILE: sorting.dfy ===
/**
  Ascending numeric order on fd numbers: what `sort(function (a, b) {
  return (a - b); })` produces for an array of non-negative integers,
  defined here as insertion sort.
 */
module Sorting {

  predicate Sorted(s: seq<nat>) {
    forall i, j :: 0 <= i < j < |s| ==> s[i] <= s[j]
  }

  /** Inserts x into an ascending sequence, keeping it ascending. */
  function Insert(x: nat, s: seq<nat>): (r: seq<nat>)
    requires Sorted(s)
    ensures Sorted(r)
    ensures multiset(r) == multiset(s) + multiset{x}
  {
    if |s| == 0 then [x]
    else if x <= s[0] then [x] + s
    else
      var tail := Insert(x, s[1..]);
      assert s == [s[0]] + s[1..];
      BoundedBy(s[0], s[1..], x, tail);
      ConsSorted(s[0], tail);
      [s[0]] + tail
  }

  /** A rearrangement of `rest` plus `x`, all at least `h`, is bounded below by `h`. */
  lemma BoundedBy(h: nat, rest: seq<nat>, x: nat, t: seq<nat>)
    requires h <= x && forall k :: 0 <= k < |rest| ==> h <= rest[k]
    requires multiset(t) == multiset(rest) + multiset{x}
    ensures forall k :: 0 <= k < |t| ==> h <= t[k]
  {
    forall k | 0 <= k < |t|
      ensures h <= t[k]
    {
      assert t[k] in multiset(t);
      if t[k] != x {
        assert t[k] in multiset(rest);
      }
    }
  }

  /** Putting a lower bound in front of an ascending sequence keeps it ascending. */
  lemma ConsSorted(h: nat, t: seq<nat>)
    requires Sorted(t) && forall k :: 0 <= k < |t| ==> h <= t[k]
    ensures Sorted([h] + t)
  {
    var r := [h] + t;
    assert forall i :: 1 <= i < |r| ==> r[i] == t[i - 1];
  }

  /** Numeric ascending sort: an ascending rearrangement of its input. */
  function Sort(s: seq<nat>): (r: seq<nat>)
    ensures Sorted(r)
    ensures multiset(r) == multiset(s)
  {
    if |s| == 0 then []
    else
      assert s == [s[0]] + s[1..];
      Insert(s[0], Sort(s[1..]))
  }

  /** The first element of an ascending sequence is its least element. */
  lemma HeadIsLeast(s: seq<nat>, x: nat)
    requires Sorted(s)
    requires x in multiset(s)
    ensures |s| > 0 && s[0] <= x
  {
    var k :| 0 <= k < |s| && s[k] == x;
  }

  /**
    Two ascending sequences with the same elements (counted with
    multiplicity) are equal: sorting leaves no choice.
   */
  lemma {:induction false} SortedUnique(a: seq<nat>, b: seq<nat>)
    requires Sorted(a) && Sorted(b)
    requires multiset(a) == multiset(b)
    ensures a == b
  {
    if |a| == 0 {
      assert |multiset(b)| == 0;
    } else {
      assert a[0] in multiset(a);
      HeadIsLeast(b, a[0]);
      assert b[0] in multiset(b);
      HeadIsLeast(a, b[0]);
      assert a[0] == b[0];
      assert a == [a[0]] + a[1..];
      assert b == [b[0]] + b[1..];
      assert multiset(a[1..]) == multiset(a) - multiset{a[0]};
      assert multiset(b[1..]) == multiset(b) - multiset{b[0]};
      SortedUnique(a[1..], b[1..]);
    }
  }

  /** Sort is the one ascending rearrangement of its input. */
  lemma SortIsCanonical(s: seq<nat>, t: seq<nat>)
    requires Sorted(t)
    requires multiset(t) == multiset(s)
    ensures Sort(s) == t
  {
    SortedUnique(Sort(s), t);
  }
}

=== FILE: text.dfy ===
/**
  The two string primitives the fd leak checker relies on, with JavaScript's
  semantics for a one-character separator: `String.prototype.split` (used on
  the fd listing with a newline) and `Array.prototype.join` (used by `differs`
  with a comma), and the `filter` that drops empty lines.
 */
module Text {

  /**
    `s.split(sep)`: the maximal separator-free pieces between separators.
    The empty string splits into one empty piece, and a trailing separator
    yields a trailing empty piece.
   */
  function Split(s: string, sep: char): (parts: seq<string>)
    ensures |parts| > 0
    ensures forall i :: 0 <= i < |parts| ==> sep !in parts[i]
    decreases |s|
  {
    if |s| == 0 then [""]
    else
      var rest := Split(s[1..], sep);
      assert s == [s[0]] + s[1..];
      if s[0] == sep then [""] + rest
      else [[s[0]] + rest[0]] + rest[1..]
  }

  /** `parts.join(sep)`: the pieces with one separator between neighbours. */
  function Join(parts: seq<string>, sep: char): (s: string)
    // the first piece leads, followed by a separator when more pieces follow
    ensures |parts| > 0 ==> |s| >= |parts[0]| && s[..|parts[0]|] == parts[0]
    ensures |parts| > 1 ==> |s| > |parts[0]| && s[|parts[0]|] == sep
  {
    if |parts| == 0 then ""
    else if |parts| == 1 then parts[0]
    else parts[0] + [sep] + Join(parts[1..], sep)
  }

  /** `filter(function (s) { return (s.length !== 0); })`: drops the empty pieces. */
  function NonEmpty(parts: seq<string>): (r: seq<string>)
    ensures forall i :: 0 <= i < |r| ==> |r[i]| > 0
    ensures multiset(r) == multiset(parts)["" := 0]
    ensures |r| == |parts| - multiset(parts)[""]
  {
    if |parts| == 0 then []
    else
      assert parts == [parts[0]] + parts[1..];
      if |parts[0]| == 0 then NonEmpty(parts[1..])
      else [parts[0]] + NonEmpty(parts[1..])
  }

  /** The filter keeps the order of the pieces: filtering a concatenation filters each part. */
  lemma {:induction false} NonEmptyAppend(a: seq<string>, b: seq<string>)
    ensures NonEmpty(a + b) == NonEmpty(a) + NonEmpty(b)
  {
    if |a| == 0 {
      assert a + b == b;
    } else {
      assert (a + b)[0] == a[0] && (a + b)[1..] == a[1..] + b;
      NonEmptyAppend(a[1..], b);
    }
  }

  /** The filter leaves a sequence of non-empty pieces as it is. */
  lemma {:induction false} NonEmptyKeeps(parts: seq<string>)
    requires forall i :: 0 <= i < |parts| ==> |parts[i]| > 0
    ensures NonEmpty(parts) == parts
  {
    if |parts| > 0 {
      NonEmptyKeeps(parts[1..]);
      assert parts == [parts[0]] + parts[1..];
    }
  }

  /** A separator-free string splits into itself alone. */
  lemma {:induction false} SplitAtom(a: string, sep: char)
    requires sep !in a
    ensures Split(a, sep) == [a]
  {
    if |a| > 0 {
      SplitAtom(a[1..], sep);
      assert [a[0]] + a[1..] == a;
    }
  }

  /** Splitting at the first separator peels off the leading piece. */
  lemma {:induction false} SplitAtFirst(a: string, sep: char, b: string)
    requires sep !in a
    ensures Split(a + [sep] + b, sep) == [a] + Split(b, sep)
  {
    var s := a + [sep] + b;
    if |a| == 0 {
      assert s[1..] == b;
    } else {
      assert s[1..] == a[1..] + [sep] + b;
      SplitAtFirst(a[1..], sep, b);
      assert [a[0]] + a[1..] == a;
    }
  }

  /** Joining and splitting again at a separator no piece contains is the identity. */
  lemma {:induction false} SplitJoin(parts: seq<string>, sep: char)
    requires |parts| > 0
    requires forall i :: 0 <= i < |parts| ==> sep !in parts[i]
    ensures Split(Join(parts, sep), sep) == parts
  {
    if |parts| == 1 {
      SplitAtom(parts[0], sep);
    } else {
      SplitJoin(parts[1..], sep);
      SplitAtFirst(parts[0], sep, Join(parts[1..], sep));
      assert [parts[0]] + parts[1..] == parts;
    }
  }

  /** Splitting and joining again at the same separator gives back the string. */
  lemma {:induction false} JoinSplit(s: string, sep: char)
    ensures Join(Split(s, sep), sep) == s
    decreases |s|
  {
    if |s| > 0 {
      var rest := Split(s[1..], sep);
      var parts := Split(s, sep);
      JoinSplit(s[1..], sep);
      assert s == [s[0]] + Join(rest, sep);
      if s[0] == sep {
        assert parts == [""] + rest;
        assert parts[1..] == rest;
        assert Join(parts, sep) == "" + [sep] + Join(rest, sep);
      } else {
        assert parts == [[s[0]] + rest[0]] + rest[1..];
        if |rest| == 1 {
          assert Join(parts, sep) == [s[0]] + rest[0];
        } else {
          assert parts[1..] == rest[1..];
          assert Join(rest, sep) == rest[0] + [sep] + Join(rest[1..], sep);
          assert Join(parts, sep) == ([s[0]] + rest[0]) + [sep] + Join(rest[1..], sep);
        }
      }
    }
  }
}

=== FILE: waterfall.dfy ===
/**
  vasync's `waterfall`: steps run one after another, each only once its
  predecessor has reported success, and the final callback receives the
  first error (later steps never start) or no error once every step passed.

  The operating system's answers are inputs of this model, so each step's
  status is known in advance; what the waterfall decides is how many steps
  actually run and which status reaches the final callback.
 */
module Waterfall {
  import opened Outcomes

  /** How many steps ran, and what the final callback received. */
  datatype Run = Run(executed: nat, status: Status)

  function Execute(steps: seq<Status>): (r: Run)
    ensures r.executed <= |steps|
    // every step that ran before the last one passed: a failure stops the chain
    ensures forall i :: 0 <= i < |steps| && i + 1 < r.executed ==> steps[i].Pass?
    // success exactly when every step passed, and then every step ran
    ensures r.status.Pass? <==> forall i :: 0 <= i < |steps| ==> steps[i].Pass?
    ensures r.status.Pass? ==> r.executed == |steps|
    // a failure is reported by the last step that ran, and is its error
    ensures r.status.Fail? ==> 0 < r.executed && steps[r.executed - 1] == r.status
  {
    if |steps| == 0 then Run(0, Pass)
    else if steps[0].Fail? then Run(1, steps[0])
    else
      var rest := Execute(steps[1..]);
      assert forall i :: 1 <= i < |steps| ==> steps[i] == steps[1..][i - 1];
      Run(rest.executed + 1, rest.status)
  }

  /** A two-step waterfall runs the second step only when the first passes. */
  lemma ExecuteTwo(first: Status, second: Status)
    ensures Execute([first, second]) == if first.Fail? then Run(1, first) else Run(2, second)
  {
    assert [first, second][1..] == [second];
  }

  /** A three-step waterfall stops at the first of its steps that fails. */
  lemma ExecuteThree(first: Status, second: Status, third: Status)
    ensures Execute([first, second, third]) ==
              if first.Fail? then Run(1, first)
              else if second.Fail? then Run(2, second)
              else Run(3, third)
  {
    assert [first, second, third][1..] == [second, third];
    ExecuteTwo(second, third);
  }

  /** The waterfall reports the earliest failing step and runs nothing after it. */
  lemma FirstFailureWins(steps: seq<Status>, k: nat)
    requires k < |steps| && steps[k].Fail?
    requires forall i :: 0 <= i < k ==> steps[i].Pass?
    ensures Execute(steps) == Run(k + 1, steps[k])
  {
  }
}
